=== FILE: README.md ===
# ember-template-lint command-line driver, modelled in Dafny

This project models the decision logic of the `ember-template-lint` command-line
driver (`bin/ember-template-lint.js`). It covers five parts:

- **Source resolution** (`getFilesToLint`, `expandFileGlobs`). Standard input
  alone, or the duplicate-free set of `.hbs` paths that any pattern's glob matches.
- **Per-source options** (`buildLinterOptions`, `getSource`, `isReadingFromStdin`).
  The text to lint, the logical `filePath`, and the `moduleId`.
- **Linting one source** (`lintFile`). Either `verify`, or `verifyAndFix` with a
  write-back that happens exactly when the engine reports the source fixed.
- **The pending manifest** (`PENDING_RULES` and the list `printPending` builds).
  One entry per file, listing the file's failing rules without the two
  bookkeeping rules.
- **The run** (`run`). Early rejection of a bad `--config` or a failing linter
  constructor, the sequential lint loop, the exit code, and what gets printed.

A JavaScript `Set` is modelled as a duplicate-free sequence in insertion order
(`OrderedSet`). The file system is a `map<string, string>` from absolute path
to contents. Everything the driver calls but does not define is a function
value passed in:

- the globber (`globby.sync`);
- `path.resolve` and the drained contents of standard input (`Environment`);
- `JSON.parse`;
- the linter constructor and the engine's `verify` / `verifyAndFix` (`Engine`);
- the results aggregator `processResults`.

Modules, one per file: `Base` (options and results), `JsText` (`slice(0, -4)`,
`slice(-4)`), `OrderedSet`, `Results` (messages and the report), `SourceSet`,
`LinterOptions`, `Lint`, `Pending`, `Cli`.

Three behaviours of the code that the model pins down:

- The resolver keeps first-match order, because a `Set` iterates in insertion
  order.
- Pending rules are listed in the order they first fail.
- Every write to the empty path fails, as `writeFileSync('')` does. This is
  what happens to a fixed stdin source linted without `--filename`.

## Model

| member | source | states |
|---|---|---|
| JsText.DropLast4 | bin/ember-template-lint.js:35 | `slice(0, -4)` gives a prefix of the string that is four characters shorter, or the empty string for strings shorter than four |
| JsText.Last4 | bin/ember-template-lint.js:64 | `slice(-4)` gives the last four characters (or the whole of a shorter string), and together with `slice(0, -4)` it gives back the original string |
| JsText.HasTemplateExtension | bin/ember-template-lint.js:64 | the filter's test: a path is a template exactly when its last four characters are `.hbs` |
| JsText.TemplateExtensionIsSuffix | bin/ember-template-lint.js:64 | the `.hbs` test holds exactly when the path is some stem followed by `.hbs`, and that stem is then what `slice(0, -4)` returns |
| JsText.DropLast4OfSuffixed | bin/ember-template-lint.js:35 | the module id of `stem + ext` is `stem` for any four-character extension |
| OrderedSet.Add | bin/ember-template-lint.js:65 | `Set.add` keeps the existing elements in place, appends the element only if it is new, and never creates a duplicate |
| OrderedSet.Dedup | bin/ember-template-lint.js:58-66 | adding a sequence's elements one by one gives a duplicate-free sequence with exactly the same elements |
| OrderedSet.DedupFirstSeen | bin/ember-template-lint.js:58-66 | the set lists its elements in the order of their first occurrence in the input |
| OrderedSet.DedupOfDistinct | bin/ember-template-lint.js:58-66 | a sequence without repeats is its own insertion-ordered set |
| OrderedSet.DedupIdempotent | bin/ember-template-lint.js:58-66 | building the set again from the set changes nothing |
| OrderedSet.AddAll | bin/ember-template-lint.js:65 | adding a list of paths to a set one by one keeps the set as a prefix, gives exactly the union of the elements, and creates no duplicate |
| OrderedSet.DedupAppend | bin/ember-template-lint.js:58-66 | building the set of `a + b` is building the set of `a` and then adding the elements of `b` one at a time |
| SourceSet.GlobOptionsFor | bin/ember-template-lint.js:62-63 | the glob options are empty exactly when the ignore list starts with `false`; otherwise they carry the whole ignore list with `.gitignore` handling on |
| SourceSet.KeepTemplates | bin/ember-template-lint.js:64 | the filter keeps exactly the matched paths that end in `.hbs` |
| SourceSet.KeepTemplatesAppend | bin/ember-template-lint.js:64 | the `.hbs` filter keeps the globber's order: filtering `a + b` is filtering `a` followed by filtering `b` |
| SourceSet.AllTemplateMatches | bin/ember-template-lint.js:60-66 | a path is among the collected matches exactly when some pattern's glob matches it and it ends in `.hbs` |
| SourceSet.ExpandFileGlobs | bin/ember-template-lint.js:57-69 | the result has no duplicates, only `.hbs` paths, and exactly the paths some pattern matches, in first-match order |
| SourceSet.ExpandFileGlobsSnoc | bin/ember-template-lint.js:60-66 | one more pattern adds its `.hbs` matches to the set one at a time, in the order the globber lists them, as the `forEach` over the patterns does |
| SourceSet.IsStdinRequest | bin/ember-template-lint.js:74 | standard input is read exactly when there are no patterns or `-` or `/dev/stdin` is among them |
| SourceSet.GetFilesToLint | bin/ember-template-lint.js:71-81 | with no patterns, `-` or `/dev/stdin` among them the result is exactly `[/dev/stdin]`; otherwise it is the glob expansion, which never contains `/dev/stdin` |
| SourceSet.StdinMarkerAnywhere | bin/ember-template-lint.js:74-75 | a stdin marker at any position discards every other pattern |
| SourceSet.StdinSpellingsAgree | bin/ember-template-lint.js:74-75 | no patterns, `-` and `/dev/stdin` all resolve to the same single stdin source |
| LinterOptions.IsReadingFromStdin | bin/ember-template-lint.js:23-25 | a path reads standard input exactly when it is `/dev/stdin` |
| LinterOptions.ModuleId | bin/ember-template-lint.js:35 | the module id is the path without its last four characters, whatever they are (a prefix four characters shorter), or `''` for a shorter path; for a `.hbs` path, adding `.hbs` back gives the path |
| LinterOptions.LogicalFilePath | bin/ember-template-lint.js:30-33 | a file source keeps its path as given; a source resolving to `/dev/stdin` takes the `--filename` value, or `''` without one |
| LinterOptions.GetSource | bin/ember-template-lint.js:14-21 | stdin yields what standard input delivers; a file yields its contents and fails exactly when no file exists at that path |
| LinterOptions.BuildLinterOptions | bin/ember-template-lint.js:27-40 | the options carry the logical path and a module id that is its prefix; stdin never fails; a file source fails exactly when its resolved path holds no file, and then with that path |
| LinterOptions.StdinWithFilename | test/acceptance/stdin-by-platform-test.js:60-119 | piping `app/templates/application.hbs` with `--filename`, with or without `-`, lints standard input under that name with module id `app/templates/application` |
| Lint.WriteFile | bin/ember-template-lint.js:48 | a write sets the file at the resolved path to the output and leaves every other file alone; writing to `''` fails |
| Lint.LintFile | bin/ember-template-lint.js:42-55 | without `--fix`: the `verify` messages, file system unchanged. With `--fix`: the `verifyAndFix` messages, and a write to the logical path if and only if `isFixed`. A read failure propagates. A write fails exactly for a fixed source whose logical path is `''`, with `WriteFailed('')` |
| Lint.Step | bin/ember-template-lint.js:220-224 | one loop turn keeps the earlier messages and writes as a prefix, adds at most one write, and does nothing after a failure |
| Lint.LintAll | bin/ember-template-lint.js:219-224 | the loop writes at most once per source, and over no sources returns nothing and leaves the file system alone |
| Lint.LintAllAppend | bin/ember-template-lint.js:219-224 | linting `a + b` is linting `a` and then `b` from the resulting file system, so messages are concatenated in source order |
| Lint.LintFileIsFramed | bin/ember-template-lint.js:45-51 | every successful `lintFile` changes the file system only at the path it reports writing, which is the source's logical path |
| Lint.LintAllFrame | bin/ember-template-lint.js:45-51 | after a run, every file outside the written targets is unchanged and no other file appears |
| Lint.LintAllWritesSources | bin/ember-template-lint.js:48 | every write of a run targets the logical path of one of its sources |
| Lint.ReadOnlyRunIsVerifyAll | bin/ember-template-lint.js:52-54 | without `--fix`, a run writes nothing, fails exactly when some source is unreadable, and otherwise returns each source's `verify` messages in order |
| Lint.NoDoubleWrite | bin/ember-template-lint.js:219-224 | for duplicate-free file sources, each listed path string is written at most once per run, and only source paths are written |
| Lint.NoFileWrittenTwice | bin/ember-template-lint.js:219-224 | when no two sources resolve to the same file, no file is written twice in one run |
| Lint.TwoSpellingsWrittenTwice | bin/ember-template-lint.js:65 | sources are deduplicated by spelling: with `--fix`, `a.hbs` and `./a.hbs` naming one file are both linted, and that file is written twice, the second fix applied on top of the first |
| Pending.IsBookkeepingRule | bin/ember-template-lint.js:155-161 | a rule is a bookkeeping rule exactly when it is `invalid-pending-module` or `invalid-pending-module-rule` |
| Pending.HasPendingRules | bin/ember-template-lint.js:168 | a file gets a pending entry exactly when its failing-rule set is non-empty |
| Pending.FailingRules | bin/ember-template-lint.js:160-166 | the reduce gives a rule list with no duplicates and no more rules than messages |
| Pending.FailingRulesMembers | bin/ember-template-lint.js:160-166 | a rule is listed exactly when it is not a bookkeeping rule and some message of the file reports it |
| Pending.FailingRulesIsDedup | bin/ember-template-lint.js:160-166 | the reduce equals the insertion-ordered set of the non-bookkeeping rule names in message order |
| Pending.FailingRulesFirstSeen | bin/ember-template-lint.js:160-166 | the failing rules appear in the order in which they first fail |
| Pending.EntryFor | bin/ember-template-lint.js:169 | an entry's module id is the file path without its last four characters (a prefix four characters shorter, or `''`), and its rule list has no duplicates |
| Pending.PendingList | bin/ember-template-lint.js:156-171 | the pending list has no more entries than files; entry k is the entry of the k-th file that has a failing non-bookkeeping rule |
| Pending.PendingPositions | bin/ember-template-lint.js:158-171 | the files that get an entry are exactly those with a failing non-bookkeeping rule, in increasing file order |
| Pending.PendingListMatchesPositions | bin/ember-template-lint.js:157-171 | entry k belongs to the k-th such file, with its module id and its failing rules. Each entry's list is non-empty and duplicate-free |
| Pending.BookkeepingOnlyMessagesFailNoRule | bin/ember-template-lint.js:155-166 | messages from the two bookkeeping rules alone leave no failing rule |
| Pending.OnlyBookkeepingMessagesGiveNoEntry | bin/ember-template-lint.js:155-171 | a file whose messages all come from bookkeeping rules gets no pending entry |
| Pending.EntryNamesExactlyTheFailingRules | bin/ember-template-lint.js:160-169 | an entry names a rule exactly when that rule fails in its file and is not a bookkeeping rule |
| Pending.PendingListSkipsBookkeeping | bin/ember-template-lint.js:155-169 | no entry of the pending list names `invalid-pending-module` or `invalid-pending-module-rule` |
| Cli.DefaultsReachGlobberAndLinter | bin/ember-template-lint.js:88-137 | with the defaults of `--ignore-pattern` (lines 133-137) and `--config-path` (lines 88-91), the globber gets the three default ignore globs with `.gitignore` on (lines 62-63) and the linter gets `.template-lintrc.js`; `--no-ignore-pattern` gives `{}` |
| Cli.HasInlineConfig | bin/ember-template-lint.js:190 | `--config` is used only when it is given and not empty |
| Cli.ConfigUnparseable | bin/ember-template-lint.js:190-197 | the run is rejected for its configuration exactly when a used `--config` fails to parse as JSON |
| Cli.LinterConfigFor | bin/ember-template-lint.js:206-210 | the linter gets the effective config path, the parsed `--config` (absent exactly when the option is missing or empty) and `--rule` |
| Cli.ConstructionFails | bin/ember-template-lint.js:211-215 | the run is rejected for its linter exactly when the configuration parses and the constructor throws for that option bag |
| Cli.ExitCode | bin/ember-template-lint.js:195-228 | `process.exitCode` as the run leaves it: 1 after a rejected `--config` (line 195) or constructor (line 213), the finished run's code (line 228), and none for a crash |
| Cli.EffectiveConfigPath | bin/ember-template-lint.js:200-202 | giving `--no-config-path` at all replaces the configuration path with `false`; otherwise the path is passed through |
| Cli.Run | bin/ember-template-lint.js:185-240 | see the list below |

`Cli.Run` states:

- Unparseable `--config` JSON, or a constructor that throws, rejects the run
  with exit code 1 before any source is resolved.
- Otherwise the run lints exactly the resolved sources, in order. Of the
  failures the model represents, it crashes exactly when the lint loop hits
  a read or write failure.
- A finished run reports the aggregate of the concatenated messages. Its exit
  code is 1 if and only if `errorCount > 0`, and 0 otherwise.
- The pending list is printed if and only if `--print-pending` is given.
  Otherwise the report is printed if and only if it counts an error or a
  warning, and nothing is printed for a clean run.
- Without `--fix` the file system is unchanged and the messages are every
  source's `verify` result. With `--fix`, only written files change.

## Left out

- Argument parsing (`parseArgv`, yargs): the parsed options are an input
  record. The defaults of `--config-path` and `--ignore-pattern` are kept as
  constants. An empty command line shows the help and exits with code 1
  before `run` goes on, so `Cli.Run` with no positional patterns stands only
  for a command line that has some option, such as `--filename x`. A bare
  invocation never reaches standard input.
- Glob expansion, `path.resolve`, draining standard input, `JSON.parse`, the
  engine and the results aggregator are uninterpreted function values. Their
  internal behaviour is not visible here.
- Printing: the text of `console.log` and `console.error`, `JSON.stringify`
  formatting, and the default printer. The model records only what would be
  printed.
- `async`/`await`: sources are processed strictly one after another, so
  there is no concurrency to model.
- Cli.Run: exceptions thrown by the collaborators are not modelled. Nothing
  in `run` catches a throw from `globby.sync`, the engine's `verify` /
  `verifyAndFix` or `processResults`, so each would reject `run()` as a read
  failure does. The model's collaborators are total functions.
- Cli.Run: the process exit code after a read or write failure is not
  modelled. Such a failure makes the promise returned by `run()` reject
  unhandled, and the resulting exit status depends on the Node version.
- Lint.NoDoubleWrite: the source deduplicates sources by spelling, not by
  file. Two spellings of one file (`a.hbs`, `./a.hbs`) are both linted and,
  with `--fix`, written twice. `Lint.TwoSpellingsWrittenTwice` shows this, and
  `Lint.NoFileWrittenTwice` needs resolution to be one-to-one on the sources.
- JsText.DropLast4: strings are sequences of Unicode scalar values, while
  JavaScript's `slice` counts UTF-16 code units. The two agree on any path
  without characters outside the Basic Multilingual Plane. With such
  characters they differ (`'abc😀'.slice(0, -4)` is `'a'`; the model gives
  `''`), and a JavaScript slice can leave a lone surrogate, which no `char`
  holds. The `.hbs` test agrees either way. The module id of a non-`.hbs`
  stdin `--filename` with such characters may not.
- Lint.WriteFile: only the empty path is modelled as a failing write. Failures
  from permissions or missing directories are not, because the file system
  model has no such attributes.
- LinterOptions.GetSource: a read fails only when no file exists at the path.
  `readFileSync` also throws for a file it may not read and for a directory.
  The file system model has neither, so both can only appear as a missing
  file.
- Pending.PendingList: the files are taken in the order the aggregator lists
  them. JavaScript's `for…in` puts integer-like keys first. That reordering is
  not modelled. It cannot matter: a globbed path ends in `.hbs` and so is
  never integer-like, and a standard-input run, whose one key is the
  `--filename` value (`--filename 7`, say), has a single file.
- Cli.Json: the parsed configuration is passed through untouched. Numbers keep
  their literal text instead of a floating-point value.
- The stdin acceptance test (`test/acceptance/stdin-by-platform-test.js`) and
  its fixture (`test/helpers/set-config.js`) give the stdin scenario. It is
  stated as `LinterOptions.StdinWithFilename` with an abstract engine. The
  rule-specific messages (`no-bare-strings`) belong to the engine, which is
  not part of this model.

=== FILE: base.dfy ===
/** Small value types shared by every module: an optional value (a JavaScript
    value that may be `undefined`) and a result that is either a value or the
    error a call would have thrown. */
module Base {

  datatype Option<T> = None | Some(value: T) {

    /** The value, or `default` when there is none. */
    function GetOr(default: T): T {
      match this
      case Some(v) => v
      case None => default
    }
  }

  datatype Result<T, E> = Ok(value: T) | Err(error: E)
}

=== FILE: cli.dfy ===
/** The top level of one invocation (`run` in bin/ember-template-lint.js):
    parse the inline configuration, construct the linter, resolve and lint
    the sources, then set the exit code and print either the pending manifest
    or the report. */
module Cli {
  import opened Base
  import opened Results
  import opened SourceSet
  import opened LinterOptions
  import opened Lint
  import opened Pending

  /** The default of `--config-path`. */
  const DEFAULT_CONFIG_PATH: string := ".template-lintrc.js"

  /** The default of `--ignore-pattern`. */
  const DEFAULT_IGNORE_PATTERN: seq<IgnoreItem> :=
    [IgnoreGlob("**/dist/**"), IgnoreGlob("**/tmp/**"), IgnoreGlob("**/node_modules/**")]

  /** What `run` reports when `--config` is not valid JSON. */
  const CONFIG_PARSE_ERROR: string := "Could not parse specified `--config` as JSON"

  /** A value `JSON.parse` can produce; numbers keep their literal text. */
  datatype Json =
    | JNull
    | JBool(b: bool)
    | JNumber(literal: string)
    | JString(s: string)
    | JArray(items: seq<Json>)
    | JObject(members: seq<(string, Json)>)

  /** The parsed command line, as far as `run` and the functions it calls read it. */
  datatype CliOptions = CliOptions(
    positional: seq<string>,
    config: Option<string>,
    configPath: string,
    noConfigPath: Option<bool>,
    rule: Option<string>,
    filename: Option<string>,
    fix: bool,
    json: bool,
    printPending: bool,
    ignorePattern: seq<IgnoreItem>)

  /** `configPath` as the linter receives it: a path, or `false`. */
  datatype ConfigPath = ConfigFile(path: string) | NoConfigFile

  /** The option bag handed to the linter's constructor. */
  datatype LinterConfig = LinterConfig(configPath: ConfigPath, config: Option<Json>, rule: Option<string>)

  /** Everything outside the driver that a run talks to: `JSON.parse` (no value
      when it throws), the linter constructor (the error message when it
      throws), the globber, the process, and the results aggregator. */
  datatype Collaborators = Collaborators(
    parseJson: string -> Option<Json>,
    newLinter: LinterConfig -> Result<Engine, string>,
    glob: Glob,
    env: Environment,
    aggregate: seq<Message> -> Report)

  /** What the run prints on standard output. */
  datatype Printed =
    | NothingPrinted
    | PendingPrinted(entries: seq<PendingEntry>, asJson: bool)
    | ReportPrinted(report: Report)

  /** How a run ends: rejected before any linting (exit code 1, message on
      standard error), stopped by a file that could not be read or written, or
      finished. */
  datatype RunResult =
    | ConfigRejected(message: string)
    | Crashed(error: FsError, fs: FileSystem)
    | Finished(exitCode: nat, sources: seq<string>, messages: seq<Message>, report: Report,
               printed: Printed, written: seq<string>, fs: FileSystem)

  /** `if (options.config)`: an absent or empty `--config` is ignored. */
  predicate HasInlineConfig(cli: CliOptions) {
    cli.config.Some? && cli.config.value != ""
  }

  /** The `JSON.parse` of a non-empty `--config` throws. */
  predicate ConfigUnparseable(cli: CliOptions, co: Collaborators) {
    HasInlineConfig(cli) && co.parseJson(cli.config.value).None?
  }

  /** `--no-config-path`, given at all, replaces the configuration path with `false`. */
  function EffectiveConfigPath(cli: CliOptions): (p: ConfigPath)
    ensures p.NoConfigFile? <==> cli.noConfigPath.Some?
    ensures p.ConfigFile? ==> p.path == cli.configPath
  {
    if cli.noConfigPath.Some? then NoConfigFile else ConfigFile(cli.configPath)
  }

  /** Left at their defaults, the two options reach their consumers as the
      default ignore globs with `.gitignore` honoured and the configuration
      file `.template-lintrc.js`; `--no-ignore-pattern` switches ignoring off. */
  lemma DefaultsReachGlobberAndLinter(cli: CliOptions)
    requires cli.ignorePattern == DEFAULT_IGNORE_PATTERN
    requires cli.configPath == DEFAULT_CONFIG_PATH && cli.noConfigPath.None?
    ensures GlobOptionsFor(cli.ignorePattern) == IgnoreOptions(DEFAULT_IGNORE_PATTERN, true)
    ensures EffectiveConfigPath(cli) == ConfigFile(DEFAULT_CONFIG_PATH)
    ensures GlobOptionsFor([IgnoreFalse]) == NoGlobOptions
  {
  }

  /** The option bag for `new Linter`: the effective configuration path, the
      parsed `--config` (absent when the option is missing or empty), and
      `--rule`. */
  function LinterConfigFor(cli: CliOptions, co: Collaborators): (r: LinterConfig)
    requires !ConfigUnparseable(cli, co)
    ensures r.configPath == EffectiveConfigPath(cli) && r.rule == cli.rule
    ensures r.config.Some? <==> HasInlineConfig(cli)
    ensures HasInlineConfig(cli) ==> r.config == co.parseJson(cli.config.value)
  {
    var config := if HasInlineConfig(cli) then co.parseJson(cli.config.value) else None;
    LinterConfig(EffectiveConfigPath(cli), config, cli.rule)
  }

  /** `new Linter(...)` throws for the option bag of this invocation. */
  predicate ConstructionFails(cli: CliOptions, co: Collaborators) {
    !ConfigUnparseable(cli, co) && co.newLinter(LinterConfigFor(cli, co)).Err?
  }

  function SettingsFor(cli: CliOptions): LintSettings {
    LintSettings(cli.fix, cli.filename)
  }

  /** `process.exitCode` when the run ends, if it ends normally: 1 after a
      rejected configuration or constructor, the code `Run` sets for a
      finished run, and nothing for a crash. A helper of `Run`'s contract. */
  function ExitCode(r: RunResult): Option<nat> {
    match r
    case ConfigRejected(_) => Some(1)
    case Crashed(_, _) => None
    case Finished(code, _, _, _, _, _, _) => Some(code)
  }

  /** One invocation. A bad `--config` or a failing constructor ends the run
      with exit code 1 before any source is resolved. Otherwise the sources
      are linted in resolution order; the exit code is 1 exactly when the
      report counts an error; the pending manifest is printed when asked
      for, and otherwise the report is printed exactly when it counts an error
      or a warning. */
  function Run(cli: CliOptions, co: Collaborators, fs: FileSystem): (r: RunResult)
    ensures ConfigUnparseable(cli, co) ==> r == ConfigRejected(CONFIG_PARSE_ERROR)
    ensures r.ConfigRejected? <==> ConfigUnparseable(cli, co) || ConstructionFails(cli, co)
    ensures r.ConfigRejected? ==> ExitCode(r) == Some(1)
    ensures !r.ConfigRejected? ==>
      var engine := co.newLinter(LinterConfigFor(cli, co)).value;
      var sources := GetFilesToLint(co.glob, cli.positional, cli.ignorePattern);
      var p := LintAll(LinterFor(engine, SettingsFor(cli), co.env), sources, fs);
      && (r.Crashed? <==> p.failure.Some?)
      && (r.Crashed? ==> r.error == p.failure.value && r.fs == p.fs)
      && (r.Finished? ==> r.sources == sources && r.messages == p.messages && r.written == p.writes && r.fs == p.fs)
      && (r.Finished? && !cli.fix ==>
            r.fs == fs && r.written == [] && Some(r.messages) == VerifyAll(VerifierFor(engine, cli.filename, co.env, fs), sources))
    ensures r.Finished? ==> r.report == co.aggregate(r.messages)
    ensures r.Finished? ==> (r.exitCode == 1 <==> r.report.errorCount > 0) && r.exitCode <= 1
    ensures r.Finished? ==>
      (r.printed.ReportPrinted? <==> !cli.printPending && (r.report.errorCount > 0 || r.report.warningCount > 0))
    ensures r.Finished? && cli.printPending ==> r.printed == PendingPrinted(PendingList(r.report.files), cli.json)
    ensures r.Finished? ==> (r.printed.PendingPrinted? <==> cli.printPending)
    ensures r.Finished? && r.printed.ReportPrinted? ==> r.printed.report == r.report
    ensures r.Finished? ==>
      forall path :: path in fs && path !in WriteTargets(r.written, co.env) ==> path in r.fs && r.fs[path] == fs[path]
  {
    if ConfigUnparseable(cli, co) then ConfigRejected(CONFIG_PARSE_ERROR)
    else
      match co.newLinter(LinterConfigFor(cli, co))
      case Err(message) => ConfigRejected(message)
      case Ok(engine) =>
        var sources := GetFilesToLint(co.glob, cli.positional, cli.ignorePattern);
        var settings := SettingsFor(cli);
        var lint := LinterFor(engine, settings, co.env);
        var p := LintAll(lint, sources, fs);
        LintFileIsFramed(engine, settings, co.env);
        LintAllFrame(lint, settings, co.env, sources, fs);
        ReadOnlyRunIsVerifyAll(engine, LintSettings(false, cli.filename), co.env, sources, fs);
        match p.failure
        case Some(e) => Crashed(e, p.fs)
        case None =>
          var report := co.aggregate(p.messages);
          var exitCode := if report.errorCount > 0 then 1 else 0;
          var printed :=
            if cli.printPending then PendingPrinted(PendingList(report.files), cli.json)
            else if report.errorCount != 0 || report.warningCount != 0 then ReportPrinted(report)
            else NothingPrinted;
          Finished(exitCode, sources, p.messages, report, printed, p.writes, p.fs)
  }
}

=== FILE: js_text.dfy ===
/** The two JavaScript string slices the driver uses on paths, and the
    template-extension test built from them. */
module JsText {

  /** The extension of the only file type the driver lints. */
  const TEMPLATE_EXTENSION: string := ".hbs"

  /** `s.slice(0, -4)`: everything but the last four characters; the empty
      string when `s` is shorter than four characters. */
  function DropLast4(s: string): (r: string)
    ensures r <= s
    ensures |r| == if |s| >= 4 then |s| - 4 else 0
  {
    if |s| >= 4 then s[..|s| - 4] else ""
  }

  /** `s.slice(-4)`: the last four characters, or all of `s` when it is shorter. */
  function Last4(s: string): (r: string)
    ensures |r| == if |s| >= 4 then 4 else |s|
    ensures DropLast4(s) + r == s
  {
    if |s| >= 4 then s[|s| - 4..] else s
  }

  /** `filePath.slice(-4) === '.hbs'`. */
  predicate HasTemplateExtension(path: string) {
    Last4(path) == TEMPLATE_EXTENSION
  }

  /** A path has the template extension exactly when it is some stem followed
      by ".hbs", and then the stem is what `slice(0, -4)` leaves. */
  lemma TemplateExtensionIsSuffix(path: string)
    ensures HasTemplateExtension(path) <==> exists stem :: path == stem + TEMPLATE_EXTENSION
    ensures HasTemplateExtension(path) ==> path == DropLast4(path) + TEMPLATE_EXTENSION
  {
    if exists stem :: path == stem + TEMPLATE_EXTENSION {
      var stem :| path == stem + TEMPLATE_EXTENSION;
      assert path[|path| - 4..] == TEMPLATE_EXTENSION;
    }
    if HasTemplateExtension(path) {
      assert path == DropLast4(path) + TEMPLATE_EXTENSION;
    }
  }

  /** Dropping a four-character suffix gives back exactly the stem. */
  lemma DropLast4OfSuffixed(stem: string, ext: string)
    requires |ext| == 4
    ensures DropLast4(stem + ext) == stem
    ensures Last4(stem + ext) == ext
  {
    assert (stem + ext)[..|stem|] == stem;
    assert (stem + ext)[|stem|..] == ext;
  }
}

=== FILE: lint.dfy ===
/** Linting one source and then every source of a run (`lintFile` and the
    loop of `run` in bin/ember-template-lint.js). The engine is a pair of
    functions; the only state is the file system the fix write-back changes. */
module Lint {
  import opened Base
  import opened Results
  import opened LinterOptions
  import opened OrderedSet

  /** What `verifyAndFix` returns: whether it changed the source, the new
      text, and the messages that remain. */
  datatype FixOutcome = FixOutcome(isFixed: bool, output: string, messages: seq<Message>)

  /** The linting engine's two entry points. */
  datatype Engine = Engine(verify: LintOptions -> seq<Message>, verifyAndFix: LintOptions -> FixOutcome)

  /** The two command-line options `lintFile` reads: `--fix` and `--filename`. */
  datatype LintSettings = LintSettings(fix: bool, filename: Option<string>)

  /** The messages of one source, the file system afterwards, and the path
      handed to the write, if any. */
  datatype Linted = Linted(messages: seq<Message>, fs: FileSystem, written: Option<string>)

  /** `fs.writeFileSync(path, text)`: the file at the resolved path now holds
      `text` and nothing else changes. The empty path names no file. */
  function WriteFile(path: string, text: string, env: Environment, fs: FileSystem): (r: Result<FileSystem, FsError>)
    ensures r.Err? <==> path == ""
    ensures r.Err? ==> r.error == WriteFailed(path)
    ensures r.Ok? ==> r.value.Keys == fs.Keys + {env.resolve(path)}
    ensures r.Ok? ==> r.value[env.resolve(path)] == text
    ensures r.Ok? ==> forall p :: p in fs && p != env.resolve(path) ==> r.value[p] == fs[p]
  {
    if path == "" then Err(WriteFailed(path)) else Ok(fs[env.resolve(path) := text])
  }

  /** Lint one source. Without `--fix` the engine's `verify` messages come back
      and the file system is untouched. With `--fix` the `verifyAndFix`
      messages come back, and the output is written to the logical path if and
      only if the engine reports the source fixed. */
  function LintFile(engine: Engine, relativeFilePath: string, settings: LintSettings, env: Environment,
                    fs: FileSystem): (r: Result<Linted, FsError>)
    ensures var o := BuildLinterOptions(relativeFilePath, settings.filename, env, fs);
      o.Err? ==> r == Err(o.error)
    ensures var o := BuildLinterOptions(relativeFilePath, settings.filename, env, fs);
      !settings.fix ==> (r.Ok? <==> o.Ok?)
    ensures var o := BuildLinterOptions(relativeFilePath, settings.filename, env, fs);
      !settings.fix && r.Ok? ==>
        r.value.messages == engine.verify(o.value) && r.value.fs == fs && r.value.written.None?
    ensures var o := BuildLinterOptions(relativeFilePath, settings.filename, env, fs);
      settings.fix && r.Ok? ==>
        var out := engine.verifyAndFix(o.value);
        && r.value.messages == out.messages
        && (r.value.written.Some? <==> out.isFixed)
        && (out.isFixed ==> r.value.written == Some(o.value.filePath)
                            && r.value.fs == fs[env.resolve(o.value.filePath) := out.output])
        && (!out.isFixed ==> r.value.fs == fs)
    ensures var o := BuildLinterOptions(relativeFilePath, settings.filename, env, fs);
      o.Ok? && r.Err? ==>
        settings.fix && engine.verifyAndFix(o.value).isFixed && o.value.filePath == ""
        && r.error == WriteFailed("")
    ensures var o := BuildLinterOptions(relativeFilePath, settings.filename, env, fs);
      o.Ok? && settings.fix && engine.verifyAndFix(o.value).isFixed && o.value.filePath == "" ==>
        r == Err(WriteFailed(""))
    ensures r.Ok? && r.value.written.Some? ==>
      r.value.written.value == LogicalFilePath(relativeFilePath, settings.filename, env)
  {
    match BuildLinterOptions(relativeFilePath, settings.filename, env, fs)
    case Err(e) => Err(e)
    case Ok(options) =>
      if settings.fix then
        var out := engine.verifyAndFix(options);
        if out.isFixed then
          match WriteFile(options.filePath, out.output, env, fs)
          case Err(e) => Err(e)
          case Ok(fs') => Ok(Linted(out.messages, fs', Some(options.filePath)))
        else
          Ok(Linted(out.messages, fs, None))
      else
        Ok(Linted(engine.verify(options), fs, None))
  }

  /** Linting one source against the current file system, as the run loop
      sees it. */
  type SourceLinter = (string, FileSystem) -> Result<Linted, FsError>

  /** `lintFile` with the engine and the command-line options of one run fixed. */
  function LinterFor(engine: Engine, settings: LintSettings, env: Environment): SourceLinter {
    (s: string, fs: FileSystem) => LintFile(engine, s, settings, env, fs)
  }

  /** Where a run stands: the messages collected so far, the file system, the
      paths written, and the failure that stopped it, if one did. */
  datatype Progress = Progress(messages: seq<Message>, fs: FileSystem, writes: seq<string>, failure: Option<FsError>)

  /** One turn of the run loop: lint source `s` unless the run already failed;
      its messages are appended to those collected so far. */
  function Step(lint: SourceLinter, p: Progress, s: string): (r: Progress)
    ensures p.failure.Some? ==> r == p
    ensures p.messages <= r.messages && p.writes <= r.writes
    ensures |r.writes| <= |p.writes| + 1
  {
    if p.failure.Some? then p
    else
      match lint(s, p.fs)
      case Err(e) => Progress(p.messages, p.fs, p.writes, Some(e))
      case Ok(l) =>
        Progress(p.messages + l.messages, l.fs, p.writes + (if l.written.Some? then [l.written.value] else []), None)
  }

  /** Lint the sources one after another, front to back; the first failure
      stops the run. Each source is written at most once. */
  function LintAll(lint: SourceLinter, sources: seq<string>, fs: FileSystem): (p: Progress)
    ensures |p.writes| <= |sources|
    ensures p.messages == [] && p.writes == [] && p.fs == fs <== |sources| == 0
    decreases |sources|
  {
    if |sources| == 0 then Progress([], fs, [], None)
    else Step(lint, LintAll(lint, sources[..|sources| - 1], fs), sources[|sources| - 1])
  }

  /** Carry on from `p` with more sources. */
  function Continue(lint: SourceLinter, p: Progress, more: seq<string>): Progress {
    if p.failure.Some? then p
    else
      var q := LintAll(lint, more, p.fs);
      Progress(p.messages + q.messages, q.fs, p.writes + q.writes, q.failure)
  }

  /** A turn depends on what came before only through the file system and
      whether the run failed. */
  lemma StepAfterPrefix(lint: SourceLinter, m: seq<Message>, w: seq<string>, q: Progress, s: string)
    ensures var r := Step(lint, q, s);
      Step(lint, Progress(m + q.messages, q.fs, w + q.writes, q.failure), s)
        == Progress(m + r.messages, r.fs, w + r.writes, r.failure)
  {
    if q.failure.None? {
      match lint(s, q.fs)
      case Err(e) =>
      case Ok(l) =>
        assert (m + q.messages) + l.messages == m + (q.messages + l.messages);
        var x := if l.written.Some? then [l.written.value] else [];
        assert (w + q.writes) + x == w + (q.writes + x);
    }
  }

  /** Linting a list of sources is linting a first part and then carrying on
      with the rest: messages are concatenated in source order. */
  lemma {:induction false} LintAllAppend(lint: SourceLinter, a: seq<string>, b: seq<string>, fs: FileSystem)
    ensures LintAll(lint, a + b, fs) == Continue(lint, LintAll(lint, a, fs), b)
    decreases |b|
  {
    var pa := LintAll(lint, a, fs);
    if |b| == 0 {
      assert a + b == a;
    } else {
      var binit := b[..|b| - 1];
      var last := b[|b| - 1];
      var ab := a + b;
      assert ab[..|ab| - 1] == a + binit && ab[|ab| - 1] == last;
      LintAllAppend(lint, a, binit, fs);
      if pa.failure.None? {
        var q := LintAll(lint, binit, pa.fs);
        StepAfterPrefix(lint, pa.messages, pa.writes, q, last);
      }
    }
  }

  /** What one source's linting may do to the file system: nothing, unless it
      reports a write, and then only the file at the logical path of that
      source changes. */
  predicate WriteIsFramed(l: Linted, s: string, fs: FileSystem, settings: LintSettings, env: Environment) {
    && (l.written.None? ==> l.fs == fs)
    && (l.written.Some? ==>
          var target := env.resolve(l.written.value);
          && l.written.value == LogicalFilePath(s, settings.filename, env)
          && target in l.fs
          && l.fs == fs[target := l.fs[target]])
  }

  /** A source linter each of whose results keeps to `WriteIsFramed`. */
  ghost predicate FramedLinter(lint: SourceLinter, settings: LintSettings, env: Environment) {
    forall s, fs :: lint(s, fs).Ok? ==> WriteIsFramed(lint(s, fs).value, s, fs, settings, env)
  }

  /** `lintFile` changes at most the file it reports writing. */
  lemma LintFileIsFramed(engine: Engine, settings: LintSettings, env: Environment)
    ensures FramedLinter(LinterFor(engine, settings, env), settings, env)
  {
    forall s, fs | LintFile(engine, s, settings, env, fs).Ok?
      ensures WriteIsFramed(LintFile(engine, s, settings, env, fs).value, s, fs, settings, env)
    {
    }
  }

  /** Only files that were written to can differ after a run. */
  lemma {:induction false} LintAllFrame(lint: SourceLinter, settings: LintSettings, env: Environment,
                                        sources: seq<string>, fs: FileSystem)
    requires FramedLinter(lint, settings, env)
    ensures var p := LintAll(lint, sources, fs);
      p.fs.Keys <= fs.Keys + WriteTargets(p.writes, env)
    ensures var p := LintAll(lint, sources, fs);
      forall path :: path in fs && path !in WriteTargets(p.writes, env) ==> path in p.fs && p.fs[path] == fs[path]
    decreases |sources|
  {
    if |sources| > 0 {
      var init := sources[..|sources| - 1];
      var last := sources[|sources| - 1];
      LintAllFrame(lint, settings, env, init, fs);
      var before := LintAll(lint, init, fs);
      if before.failure.None? {
        var r := lint(last, before.fs);
        if r.Ok? && r.value.written.Some? {
          var w := r.value.written.value;
          assert Step(lint, before, last).writes == before.writes + [w];
          assert WriteTargets(before.writes + [w], env) == WriteTargets(before.writes, env) + {env.resolve(w)};
        }
      }
    }
  }

  /** Every write of a run targets the logical path of one of its sources. */
  lemma {:induction false} LintAllWritesSources(lint: SourceLinter, settings: LintSettings, env: Environment,
                                                sources: seq<string>, fs: FileSystem)
    requires FramedLinter(lint, settings, env)
    ensures forall w :: w in LintAll(lint, sources, fs).writes ==>
      exists s :: s in sources && w == LogicalFilePath(s, settings.filename, env)
    decreases |sources|
  {
    if |sources| > 0 {
      var init := sources[..|sources| - 1];
      var last := sources[|sources| - 1];
      assert sources == init + [last];
      LintAllWritesSources(lint, settings, env, init, fs);
      var before := LintAll(lint, init, fs);
      if before.failure.None? {
        var r := lint(last, before.fs);
      }
    }
  }

  /** The absolute paths a list of writes touched. */
  function WriteTargets(writes: seq<string>, env: Environment): set<string> {
    set w | w in writes :: env.resolve(w)
  }

  /** Verifying one source: its `verify` messages, or nothing when it cannot
      be read. */
  function VerifierFor(engine: Engine, filename: Option<string>, env: Environment, fs: FileSystem)
    : string -> Option<seq<Message>>
  {
    (s: string) =>
      match BuildLinterOptions(s, filename, env, fs)
      case Err(_) => None
      case Ok(options) => Some(engine.verify(options))
  }

  /** The reference for a run without `--fix`: every source verified on its
      own, the messages concatenated front to back; nothing when some source
      cannot be read. */
  function VerifyAll(verifyOne: string -> Option<seq<Message>>, sources: seq<string>): Option<seq<Message>>
    decreases |sources|
  {
    if |sources| == 0 then Some([])
    else
      match verifyOne(sources[0])
      case None => None
      case Some(first) =>
        match VerifyAll(verifyOne, sources[1..])
        case None => None
        case Some(rest) => Some(first + rest)
  }

  lemma {:induction false} VerifyAllSnoc(verifyOne: string -> Option<seq<Message>>, sources: seq<string>, s: string)
    ensures VerifyAll(verifyOne, sources + [s])
         == match VerifyAll(verifyOne, sources)
            case None => None
            case Some(ms) =>
              match verifyOne(s)
              case None => None
              case Some(last) => Some(ms + last)
    decreases |sources|
  {
    var all := sources + [s];
    if |sources| == 0 {
      assert all[0] == s && all[1..] == [];
      match verifyOne(s)
      case None =>
      case Some(last) =>
        assert last + [] == [] + last;
    } else {
      var tail := sources[1..];
      assert all[0] == sources[0] && all[1..] == tail + [s];
      VerifyAllSnoc(verifyOne, tail, s);
      match verifyOne(sources[0])
      case None =>
      case Some(first) =>
        match VerifyAll(verifyOne, tail)
        case None =>
        case Some(rest) =>
          match verifyOne(s)
          case None =>
          case Some(last) =>
            assert first + (rest + last) == (first + rest) + last;
    }
  }

  /** The messages of a run that did not fail. */
  function Outcome(p: Progress): Option<seq<Message>> {
    if p.failure.None? then Some(p.messages) else None
  }

  /** Without `--fix`, a run leaves the file system alone, fails exactly when
      some source cannot be read, and otherwise returns every source's
      `verify` messages in source order. */
  lemma {:induction false} ReadOnlyRunIsVerifyAll(engine: Engine, settings: LintSettings, env: Environment,
                                                  sources: seq<string>, fs: FileSystem)
    requires !settings.fix
    ensures var p := LintAll(LinterFor(engine, settings, env), sources, fs);
      p.fs == fs && p.writes == []
    ensures Outcome(LintAll(LinterFor(engine, settings, env), sources, fs))
         == VerifyAll(VerifierFor(engine, settings.filename, env, fs), sources)
    decreases |sources|
  {
    if |sources| > 0 {
      var init := sources[..|sources| - 1];
      var last := sources[|sources| - 1];
      assert sources == init + [last];
      ReadOnlyRunIsVerifyAll(engine, settings, env, init, fs);
      VerifyAllSnoc(VerifierFor(engine, settings.filename, env, fs), init, last);
      var before := LintAll(LinterFor(engine, settings, env), init, fs);
      if before.failure.None? {
        var r := LintFile(engine, last, settings, env, fs);
      }
    }
  }

  /** Source paths listed once each are written at most once each. The
      guarantee is about path strings: two spellings of one file are two
      sources (see `TwoSpellingsWrittenTwice`). */
  lemma {:induction false} NoDoubleWrite(lint: SourceLinter, settings: LintSettings, env: Environment,
                                         sources: seq<string>, fs: FileSystem)
    requires FramedLinter(lint, settings, env)
    requires NoDup(sources)
    requires forall s :: s in sources ==> !IsReadingFromStdin(env.resolve(s))
    ensures NoDup(LintAll(lint, sources, fs).writes)
    ensures forall w :: w in LintAll(lint, sources, fs).writes ==> w in sources
    decreases |sources|
  {
    if |sources| > 0 {
      var init := sources[..|sources| - 1];
      var last := sources[|sources| - 1];
      assert sources == init + [last];
      assert last !in init;
      NoDoubleWrite(lint, settings, env, init, fs);
      var before := LintAll(lint, init, fs);
      if before.failure.None? {
        var r := lint(last, before.fs);
      }
    }
  }

  /** When no two sources resolve to the same file, no file is written twice
      in one run. */
  lemma NoFileWrittenTwice(lint: SourceLinter, settings: LintSettings, env: Environment,
                           sources: seq<string>, fs: FileSystem)
    requires FramedLinter(lint, settings, env)
    requires NoDup(sources)
    requires forall s :: s in sources ==> !IsReadingFromStdin(env.resolve(s))
    requires forall a, b :: a in sources && b in sources && a != b ==> env.resolve(a) != env.resolve(b)
    ensures var w := LintAll(lint, sources, fs).writes;
      forall i, j :: 0 <= i < j < |w| ==> env.resolve(w[i]) != env.resolve(w[j])
  {
    NoDoubleWrite(lint, settings, env, sources, fs);
    var w := LintAll(lint, sources, fs).writes;
    forall i, j | 0 <= i < j < |w|
      ensures env.resolve(w[i]) != env.resolve(w[j])
    {
      assert w[i] in w && w[j] in w;
    }
  }

  /** The engine of `TwoSpellingsWrittenTwice`: every source is fixed by
      appending "x". */
  function AppendingFixer(): Engine {
    Engine((o: LintOptions) => [], (o: LintOptions) => FixOutcome(true, o.source + "x", []))
  }

  /** `a.hbs` and `./a.hbs` name the same file under `/w`. */
  function SameFileEnv(): Environment {
    Environment((p: string) => if p == "a.hbs" || p == "./a.hbs" then "/w/a.hbs" else p, "")
  }

  /** Sources are told apart by their spelling, not by the file they name:
      with `--fix`, `a.hbs` and `./a.hbs` are both linted and the one file is
      written twice, so a fix is applied on top of a fix. */
  lemma TwoSpellingsWrittenTwice()
    ensures var p := LintAll(LinterFor(AppendingFixer(), LintSettings(true, None), SameFileEnv()),
                             ["a.hbs", "./a.hbs"], map["/w/a.hbs" := "t"]);
      p.failure.None? && p.writes == ["a.hbs", "./a.hbs"] && p.fs == map["/w/a.hbs" := "txx"]
  {
    var lint := LinterFor(AppendingFixer(), LintSettings(true, None), SameFileEnv());
    var fs0 := map["/w/a.hbs" := "t"];
    var sources := ["a.hbs", "./a.hbs"];
    assert sources[..1] == ["a.hbs"] && ["a.hbs"][..0] == [];
    assert LinterOptions.SourceSet.STDIN != "/w/a.hbs";
    var env := SameFileEnv();
    assert env.resolve("a.hbs") == "/w/a.hbs" && env.resolve("./a.hbs") == "/w/a.hbs";
    var o1 := BuildLinterOptions("a.hbs", None, env, fs0);
    assert o1.Ok? && o1.value.source == "t" && o1.value.filePath == "a.hbs";
    assert fs0["/w/a.hbs" := "tx"] == map["/w/a.hbs" := "tx"];
    var settings := LintSettings(true, None);
    assert "t" + "x" == "tx" && "tx" + "x" == "txx";
    assert AppendingFixer().verifyAndFix(o1.value) == FixOutcome(true, "tx", []);
    assert LintFile(AppendingFixer(), "a.hbs", settings, env, fs0)
        == Ok(Linted([], map["/w/a.hbs" := "tx"], Some("a.hbs")));
    var p1 := LintAll(lint, ["a.hbs"], fs0);
    assert lint("a.hbs", fs0) == Ok(Linted([], map["/w/a.hbs" := "tx"], Some("a.hbs")));
    assert p1 == Progress([], map["/w/a.hbs" := "tx"], ["a.hbs"], None);
    var o2 := BuildLinterOptions("./a.hbs", None, env, p1.fs);
    assert o2.Ok? && o2.value.source == "tx" && o2.value.filePath == "./a.hbs";
    assert p1.fs["/w/a.hbs" := "txx"] == map["/w/a.hbs" := "txx"];
    assert AppendingFixer().verifyAndFix(o2.value) == FixOutcome(true, "txx", []);
    assert LintFile(AppendingFixer(), "./a.hbs", settings, env, p1.fs)
        == Ok(Linted([], map["/w/a.hbs" := "txx"], Some("./a.hbs")));
    assert lint("./a.hbs", p1.fs) == Ok(Linted([], map["/w/a.hbs" := "txx"], Some("./a.hbs")));
  }
}

=== FILE: linter_options.dfy ===
/** The options the driver builds for one source (`buildLinterOptions` and
    `getSource` in bin/ember-template-lint.js): the text to lint, the logical
    path the engine and the fix write-back use, and the module id. */
module LinterOptions {
  import opened Base
  import opened JsText
  import SourceSet

  /** File contents keyed by absolute path. */
  type FileSystem = map<string, string>

  /** A failed file read or write; either one makes the whole run fail. */
  datatype FsError = ReadFailed(path: string) | WriteFailed(path: string)

  /** What the driver takes from its process: `path.resolve` (relative to the
      working directory) and everything standard input will deliver. */
  datatype Environment = Environment(resolve: string -> string, stdin: string)

  datatype LintOptions = LintOptions(source: string, filePath: string, moduleId: string)

  /** A path reads standard input exactly when it is the stdin device path. */
  predicate IsReadingFromStdin(path: string) {
    path == SourceSet.STDIN
  }

  /** The module id of a path: the path without its last four characters,
      whatever they are; `''` for a shorter path. */
  function ModuleId(filePath: string): (r: string)
    ensures r <= filePath
    ensures |r| == if |filePath| >= 4 then |filePath| - 4 else 0
    ensures HasTemplateExtension(filePath) ==> r + TEMPLATE_EXTENSION == filePath
    ensures |filePath| < 4 ==> r == ""
  {
    TemplateExtensionIsSuffix(filePath);
    DropLast4(filePath)
  }

  /** The path a source is reported and fixed under: the path as given, or,
      for standard input, the `--filename` value (`''` when absent or empty). */
  function LogicalFilePath(relativeFilePath: string, filename: Option<string>, env: Environment): (r: string)
    ensures !IsReadingFromStdin(env.resolve(relativeFilePath)) ==> r == relativeFilePath
    ensures IsReadingFromStdin(env.resolve(relativeFilePath)) && filename.Some? ==> r == filename.value
    ensures IsReadingFromStdin(env.resolve(relativeFilePath)) && filename.None? ==> r == ""
  {
    if IsReadingFromStdin(env.resolve(relativeFilePath)) then filename.GetOr("") else relativeFilePath
  }

  /** The text of a source: all of standard input, or the file's contents; a
      file that is not there is a read failure. */
  function GetSource(absolutePath: string, env: Environment, fs: FileSystem): (r: Result<string, FsError>)
    ensures IsReadingFromStdin(absolutePath) ==> r == Ok(env.stdin)
    ensures !IsReadingFromStdin(absolutePath) ==> (r.Ok? <==> absolutePath in fs)
    ensures !IsReadingFromStdin(absolutePath) && r.Ok? ==> r.value == fs[absolutePath]
    ensures r.Err? ==> r.error == ReadFailed(absolutePath)
  {
    if IsReadingFromStdin(absolutePath) then Ok(env.stdin)
    else if absolutePath in fs then Ok(fs[absolutePath])
    else Err(ReadFailed(absolutePath))
  }

  /** The options for one source. The module id is always a prefix of the
      logical path; reading standard input never fails; a file source fails
      exactly when its resolved path holds no file. */
  function BuildLinterOptions(relativeFilePath: string, filename: Option<string>, env: Environment,
                              fs: FileSystem): (r: Result<LintOptions, FsError>)
    ensures r.Ok? ==> r.value.filePath == LogicalFilePath(relativeFilePath, filename, env)
    ensures r.Ok? ==> r.value.moduleId == ModuleId(r.value.filePath) && r.value.moduleId <= r.value.filePath
    ensures IsReadingFromStdin(env.resolve(relativeFilePath)) ==> r.Ok? && r.value.source == env.stdin
    ensures !IsReadingFromStdin(env.resolve(relativeFilePath)) ==>
      (r.Ok? <==> env.resolve(relativeFilePath) in fs)
    ensures !IsReadingFromStdin(env.resolve(relativeFilePath)) && r.Ok? ==>
      r.value.source == fs[env.resolve(relativeFilePath)] && r.value.filePath == relativeFilePath
    ensures r.Err? ==> r.error == ReadFailed(env.resolve(relativeFilePath))
  {
    var absoluteFilePath := env.resolve(relativeFilePath);
    var filePath := LogicalFilePath(relativeFilePath, filename, env);
    var moduleId := ModuleId(filePath);
    match GetSource(absoluteFilePath, env, fs)
    case Ok(source) => Ok(LintOptions(source, filePath, moduleId))
    case Err(e) => Err(e)
  }

  /** Piping a template into the linter with `--filename`: the single source
      is standard input, linted under the given name and its module id. */
  lemma StdinWithFilename(glob: SourceSet.Glob, patterns: seq<string>, env: Environment, fs: FileSystem)
    requires patterns == [] || patterns == ["-"]
    requires env.resolve(SourceSet.STDIN) == SourceSet.STDIN
    ensures SourceSet.GetFilesToLint(glob, patterns, []) == [SourceSet.STDIN]
    ensures BuildLinterOptions(SourceSet.STDIN, Some("app/templates/application.hbs"), env, fs)
         == Ok(LintOptions(env.stdin, "app/templates/application.hbs", "app/templates/application"))
  {
    DropLast4OfSuffixed("app/templates/application", ".hbs");
    assert "app/templates/application" + ".hbs" == "app/templates/application.hbs";
  }
}

=== FILE: ordered_set.dfy ===
/** A JavaScript `Set` of strings remembers insertion order and ignores
    repeated insertions. It is modelled here as a sequence without duplicates:
    `Add` is `Set.prototype.add`, and `Dedup` is the set obtained by adding
    the elements of a sequence one after another. */
module OrderedSet {

  predicate NoDup(s: seq<string>) {
    forall i, j :: 0 <= i < j < |s| ==> s[i] != s[j]
  }

  /** `set.add(x)`: a present element is left where it is, a new one goes last. */
  function Add(s: seq<string>, x: string): (r: seq<string>)
    ensures s <= r
    ensures forall y :: y in r <==> y in s || y == x
    ensures x in s ==> r == s
    ensures x !in s ==> |r| == |s| + 1
    ensures NoDup(s) ==> NoDup(r)
  {
    if x in s then s else s + [x]
  }

  /** The set built by adding every element of `xs`, front to back. */
  function Dedup(xs: seq<string>): (r: seq<string>)
    ensures NoDup(r)
    ensures forall x :: x in r <==> x in xs
    ensures |r| <= |xs|
    decreases |xs|
  {
    if |xs| == 0 then []
    else
      var init := xs[..|xs| - 1];
      assert xs == init + [xs[|xs| - 1]];
      Add(Dedup(init), xs[|xs| - 1])
  }

  /** The position of the first occurrence of `x` in `xs`. */
  function FirstIndex(xs: seq<string>, x: string): (k: nat)
    requires x in xs
    ensures k < |xs| && xs[k] == x
    ensures x !in xs[..k]
  {
    if xs[0] == x then 0
    else
      var k' := FirstIndex(xs[1..], x);
      assert xs[..k' + 1] == [xs[0]] + xs[1..][..k'];
      k' + 1
  }

  /** `r` lists its elements in the order in which they first occur in `xs`. */
  predicate InFirstSeenOrder(r: seq<string>, xs: seq<string>)
    requires forall x :: x in r ==> x in xs
  {
    forall i, j :: 0 <= i < j < |r| ==> FirstIndex(xs, r[i]) < FirstIndex(xs, r[j])
  }

  /** The first occurrence is the only position with no earlier occurrence. */
  lemma FirstIndexUnique(xs: seq<string>, x: string, k: nat)
    requires k < |xs| && xs[k] == x && x !in xs[..k]
    ensures FirstIndex(xs, x) == k
  {
  }

  /** Appending an element does not move the first occurrence of anything
      already present. */
  lemma FirstIndexAppend(xs: seq<string>, y: string, x: string)
    requires x in xs
    ensures FirstIndex(xs + [y], x) == FirstIndex(xs, x)
  {
    var k := FirstIndex(xs, x);
    assert (xs + [y])[..k] == xs[..k];
    FirstIndexUnique(xs + [y], x, k);
  }

  /** Adding elements one by one keeps them in first-seen order. */
  lemma {:induction false} DedupFirstSeen(xs: seq<string>)
    ensures InFirstSeenOrder(Dedup(xs), xs)
    decreases |xs|
  {
    if |xs| > 0 {
      var init := xs[..|xs| - 1];
      var y := xs[|xs| - 1];
      assert xs == init + [y];
      var d := Dedup(init);
      DedupFirstSeen(init);
      forall i, j | 0 <= i < j < |Dedup(xs)|
        ensures FirstIndex(xs, Dedup(xs)[i]) < FirstIndex(xs, Dedup(xs)[j])
      {
        var r := Dedup(xs);
        FirstIndexAppend(init, y, d[i]);
        if j < |d| {
          FirstIndexAppend(init, y, d[j]);
        } else {
          assert y !in init && r[j] == y;
          assert xs[..|init|] == init;
          FirstIndexUnique(xs, y, |init|);
          assert FirstIndex(init, d[i]) < |init|;
        }
      }
    }
  }

  /** A sequence that already has no duplicates is its own set. */
  lemma {:induction false} DedupOfDistinct(xs: seq<string>)
    requires NoDup(xs)
    ensures Dedup(xs) == xs
    decreases |xs|
  {
    if |xs| > 0 {
      var init := xs[..|xs| - 1];
      assert NoDup(init);
      DedupOfDistinct(init);
      assert xs[|xs| - 1] !in init;
      assert init + [xs[|xs| - 1]] == xs;
    }
  }

  /** Adding the same elements again changes nothing: building a set is idempotent. */
  lemma DedupIdempotent(xs: seq<string>)
    ensures Dedup(Dedup(xs)) == Dedup(xs)
  {
    DedupOfDistinct(Dedup(xs));
  }

  /** `xs.forEach(x => s.add(x))`: add the elements of `xs` to the set `s`,
      front to back. */
  function AddAll(s: seq<string>, xs: seq<string>): (r: seq<string>)
    ensures s <= r
    ensures forall y :: y in r <==> y in s || y in xs
    ensures NoDup(s) ==> NoDup(r)
    decreases |xs|
  {
    if |xs| == 0 then s
    else Add(AddAll(s, xs[..|xs| - 1]), xs[|xs| - 1])
  }

  /** Building the set of `a + b` is building the set of `a` and then adding
      the elements of `b` one by one. */
  lemma {:induction false} DedupAppend(a: seq<string>, b: seq<string>)
    ensures Dedup(a + b) == AddAll(Dedup(a), b)
    decreases |b|
  {
    if |b| == 0 {
      assert a + b == a;
    } else {
      var binit := b[..|b| - 1];
      var ab := a + b;
      assert ab[..|ab| - 1] == a + binit && ab[|ab| - 1] == b[|b| - 1];
      DedupAppend(a, binit);
    }
  }
}

=== FILE: pending.dfy ===
/** The pending manifest (`PENDING_RULES` and the list `printPending` builds
    in bin/ember-template-lint.js): one entry per file that still fails some
    rule, naming the failing rules so the file can be marked pending. */
module Pending {
  import opened OrderedSet
  import opened Results
  import opened LinterOptions

  /** Rules that report problems with the pending configuration itself; they
      never go into a pending entry. */
  const PENDING_RULES: seq<string> := ["invalid-pending-module", "invalid-pending-module-rule"]

  /** `PENDING_RULES.includes(rule)`. */
  predicate IsBookkeepingRule(rule: string) {
    rule in PENDING_RULES
  }

  /** The `reduce` over a file's messages: a set of rule names, in the order
      first seen, that skips the bookkeeping rules. */
  function FailingRules(messages: seq<Message>): (r: seq<string>)
    ensures NoDup(r)
    ensures |r| <= |messages|
    decreases |messages|
  {
    if |messages| == 0 then []
    else
      var init := messages[..|messages| - 1];
      var last := messages[|messages| - 1];
      assert messages == init + [last];
      var memo := FailingRules(init);
      if !IsBookkeepingRule(last.rule) then Add(memo, last.rule) else memo
  }

  /** A rule is among the failing rules exactly when it is not a bookkeeping
      rule and some message reports it. */
  lemma {:induction false} FailingRulesMembers(messages: seq<Message>, rule: string)
    ensures rule in FailingRules(messages) <==>
      !IsBookkeepingRule(rule) && exists m :: m in messages && m.rule == rule
    decreases |messages|
  {
    if |messages| > 0 {
      var init := messages[..|messages| - 1];
      var last := messages[|messages| - 1];
      assert messages == init + [last];
      FailingRulesMembers(init, rule);
      if exists m :: m in messages && m.rule == rule {
        var m :| m in messages && m.rule == rule;
        assert m in init || m == last;
      }
    }
  }

  /** The rule names that count, message by message, repeats kept. */
  function CountedRules(messages: seq<Message>): (r: seq<string>)
    decreases |messages|
  {
    if |messages| == 0 then []
    else
      var init := messages[..|messages| - 1];
      var last := messages[|messages| - 1];
      CountedRules(init) + (if IsBookkeepingRule(last.rule) then [] else [last.rule])
  }

  /** The fold is the insertion-ordered set of the counted rule names. */
  lemma {:induction false} FailingRulesIsDedup(messages: seq<Message>)
    ensures FailingRules(messages) == Dedup(CountedRules(messages))
    decreases |messages|
  {
    if |messages| > 0 {
      var init := messages[..|messages| - 1];
      var last := messages[|messages| - 1];
      FailingRulesIsDedup(init);
      var counted := CountedRules(messages);
      if !IsBookkeepingRule(last.rule) {
        assert counted == CountedRules(init) + [last.rule];
        assert counted[..|counted| - 1] == CountedRules(init);
      } else {
        assert counted == CountedRules(init);
      }
    }
  }

  /** The failing rules keep the order in which the rules first fail. */
  lemma FailingRulesFirstSeen(messages: seq<Message>)
    ensures forall rule :: rule in FailingRules(messages) ==> rule in CountedRules(messages)
    ensures InFirstSeenOrder(FailingRules(messages), CountedRules(messages))
  {
    FailingRulesIsDedup(messages);
    DedupFirstSeen(CountedRules(messages));
  }

  /** One object of the printed list: `{ moduleId, only }`. */
  datatype PendingEntry = PendingEntry(moduleId: string, only: seq<string>)

  /** The entry a file would get: its path without the last four characters,
      and its failing rules. */
  function EntryFor(f: FileResult): (e: PendingEntry)
    ensures e.moduleId <= f.filePath
    ensures |e.moduleId| == if |f.filePath| >= 4 then |f.filePath| - 4 else 0
    ensures NoDup(e.only)
  {
    PendingEntry(ModuleId(f.filePath), FailingRules(f.messages))
  }

  /** `failingRules.size > 0`: a file gets an entry exactly when some
      non-bookkeeping rule fails in it. The test `PendingPositions` and
      `PendingList` filter by. */
  predicate HasPendingRules(f: FileResult) {
    |FailingRules(f.messages)| > 0
  }

  /** The loop over the files: push `entry(f)` for every file `f` that `keep`
      accepts, in file order. */
  function Collect(files: seq<FileResult>, keep: FileResult -> bool, entry: FileResult -> PendingEntry)
    : (r: seq<PendingEntry>)
    ensures |r| <= |files|
    decreases |files|
  {
    if |files| == 0 then []
    else
      var last := files[|files| - 1];
      Collect(files[..|files| - 1], keep, entry) + (if keep(last) then [entry(last)] else [])
  }

  /** The positions of the files that `keep` accepts, in increasing order. */
  function Positions(files: seq<FileResult>, keep: FileResult -> bool): (r: seq<nat>)
    ensures forall k :: 0 <= k < |r| ==> r[k] < |files| && keep(files[r[k]])
    ensures forall k, l :: 0 <= k < l < |r| ==> r[k] < r[l]
    ensures forall j :: 0 <= j < |files| ==> (j in r <==> keep(files[j]))
    decreases |files|
  {
    if |files| == 0 then []
    else
      var n := |files| - 1;
      var init := files[..n];
      assert forall j :: 0 <= j < n ==> files[j] == init[j];
      Positions(init, keep) + (if keep(files[n]) then [n] else [])
  }

  /** Entry k of what the loop collects belongs to the k-th accepted file. */
  lemma {:induction false} CollectMatchesPositions(files: seq<FileResult>, keep: FileResult -> bool,
                                                   entry: FileResult -> PendingEntry)
    ensures |Collect(files, keep, entry)| == |Positions(files, keep)|
    ensures forall k :: 0 <= k < |Collect(files, keep, entry)| ==>
      Collect(files, keep, entry)[k] == entry(files[Positions(files, keep)[k]])
    decreases |files|
  {
    if |files| > 0 {
      var n := |files| - 1;
      var init := files[..n];
      CollectMatchesPositions(init, keep, entry);
      var before := Collect(init, keep, entry);
      var posBefore := Positions(init, keep);
      forall k | 0 <= k < |before|
        ensures Collect(files, keep, entry)[k] == entry(files[Positions(files, keep)[k]])
      {
        assert files[posBefore[k]] == init[posBefore[k]];
      }
    }
  }

  /** The pending list, in file order: an entry for each file that still
      fails a rule that is not a bookkeeping rule. */
  function PendingList(files: seq<FileResult>): (r: seq<PendingEntry>)
    ensures |r| <= |files|
    ensures |r| == |PendingPositions(files)|
    ensures forall k :: 0 <= k < |r| ==> r[k] == EntryFor(files[PendingPositions(files)[k]])
  {
    CollectMatchesPositions(files, HasPendingRules, EntryFor);
    Collect(files, HasPendingRules, EntryFor)
  }

  /** The positions of the files that get an entry: exactly those with a
      failing non-bookkeeping rule, in increasing order. */
  function PendingPositions(files: seq<FileResult>): (r: seq<nat>)
    ensures forall k, l :: 0 <= k < l < |r| ==> r[k] < r[l]
    ensures forall j :: 0 <= j < |files| ==> (j in r <==> HasPendingRules(files[j]))
    ensures forall k :: 0 <= k < |r| ==> r[k] < |files|
  {
    Positions(files, HasPendingRules)
  }

  /** Entry k of the pending list belongs to the k-th file with failing rules:
      at most one entry per file, in file order, each with a non-empty,
      duplicate-free rule list and the file's module id. */
  lemma PendingListMatchesPositions(files: seq<FileResult>)
    ensures |PendingList(files)| == |PendingPositions(files)|
    ensures forall k :: 0 <= k < |PendingList(files)| ==>
      PendingList(files)[k] == EntryFor(files[PendingPositions(files)[k]])
    ensures forall e :: e in PendingList(files) ==> |e.only| > 0 && NoDup(e.only)
  {
  }

  /** Messages from bookkeeping rules alone leave no failing rule. */
  lemma {:induction false} BookkeepingOnlyMessagesFailNoRule(messages: seq<Message>)
    requires forall m :: m in messages ==> IsBookkeepingRule(m.rule)
    ensures FailingRules(messages) == []
    decreases |messages|
  {
    if |messages| > 0 {
      var init := messages[..|messages| - 1];
      assert forall m :: m in init ==> m in messages;
      assert messages[|messages| - 1] in messages;
      BookkeepingOnlyMessagesFailNoRule(init);
    }
  }

  /** A file whose only messages come from bookkeeping rules gets no entry. */
  lemma OnlyBookkeepingMessagesGiveNoEntry(files: seq<FileResult>, j: nat)
    requires j < |files|
    requires forall m :: m in files[j].messages ==> IsBookkeepingRule(m.rule)
    ensures j !in PendingPositions(files)
  {
    BookkeepingOnlyMessagesFailNoRule(files[j].messages);
  }

  /** Every rule in an entry failed in its file, and every non-bookkeeping rule
      that failed in the file is in the entry. */
  lemma EntryNamesExactlyTheFailingRules(f: FileResult, rule: string)
    ensures rule in EntryFor(f).only <==>
      !IsBookkeepingRule(rule) && exists m :: m in f.messages && m.rule == rule
  {
    FailingRulesMembers(f.messages, rule);
  }

  /** No entry of the pending list names a bookkeeping rule. */
  lemma PendingListSkipsBookkeeping(files: seq<FileResult>, k: nat, rule: string)
    requires k < |PendingList(files)|
    requires rule in PendingList(files)[k].only
    ensures !IsBookkeepingRule(rule)
  {
    PendingListMatchesPositions(files);
    EntryNamesExactlyTheFailingRules(files[PendingPositions(files)[k]], rule);
  }
}

=== FILE: results.dfy ===
/** What the linting engine reports and what the results aggregator folds it
    into. Both collaborators are outside this model; only the shapes the
    driver reads are kept. */
module Results {

  datatype Severity = Warning | Error

  /** One rule violation, as the engine returns it. */
  datatype Message = Message(
    filePath: string,
    rule: string,
    severity: Severity,
    line: nat,
    column: nat,
    message: string)

  /** The messages reported for one file. */
  datatype FileResult = FileResult(filePath: string, messages: seq<Message>)

  /** The aggregate the driver reads: the two counts and the per-file
      grouping, in the order the aggregator lists the files. */
  datatype Report = Report(errorCount: nat, warningCount: nat, files: seq<FileResult>)
}

=== FILE: source_set.dfy ===
/** Which sources one run lints (`getFilesToLint` and `expandFileGlobs` in
    bin/ember-template-lint.js): either standard input alone, or the
    duplicate-free union of every pattern's glob matches that are templates. */
module SourceSet {
  import opened JsText
  import opened OrderedSet

  /** The path that stands for standard input. */
  const STDIN: string := "/dev/stdin"

  /** One entry of the `--ignore-pattern` list. `--no-ignore-pattern` yields
      the one-element list holding the literal `false`. */
  datatype IgnoreItem = IgnoreGlob(pattern: string) | IgnoreFalse

  /** The options object handed to the globber: `{}` or
      `{ ignore: ignorePattern, gitignore: true }`. */
  datatype GlobOptions = NoGlobOptions | IgnoreOptions(ignore: seq<IgnoreItem>, gitignore: bool)

  /** The globber (`globby.sync`): the paths one pattern matches under the
      given options, in the order it lists them. */
  type Glob = (string, GlobOptions) -> seq<string>

  /** Ignore handling is switched off exactly when the list starts with `false`;
      otherwise the list is passed through and `.gitignore` is honoured. */
  function GlobOptionsFor(ignorePattern: seq<IgnoreItem>): (r: GlobOptions)
    ensures r.NoGlobOptions? <==> |ignorePattern| > 0 && ignorePattern[0] == IgnoreFalse
    ensures r.IgnoreOptions? ==> r.ignore == ignorePattern && r.gitignore
  {
    if |ignorePattern| > 0 && ignorePattern[0] == IgnoreFalse then NoGlobOptions
    else IgnoreOptions(ignorePattern, true)
  }

  /** The template paths among `paths`, in their order. */
  function KeepTemplates(paths: seq<string>): (r: seq<string>)
    ensures forall p :: p in r <==> p in paths && HasTemplateExtension(p)
    ensures |r| <= |paths|
    decreases |paths|
  {
    if |paths| == 0 then []
    else
      var init := paths[..|paths| - 1];
      var last := paths[|paths| - 1];
      assert paths == init + [last];
      KeepTemplates(init) + (if HasTemplateExtension(last) then [last] else [])
  }

  /** Filtering one more match appends it exactly when it is a template. */
  lemma KeepTemplatesSnoc(xs: seq<string>, x: string)
    ensures KeepTemplates(xs + [x]) == KeepTemplates(xs) + (if HasTemplateExtension(x) then [x] else [])
  {
  }

  /** Regrouping `(ka + kb) + x` as `ka + (kb + x)`. */
  lemma ReassociateLast(whole: seq<string>, ka: seq<string>, kb: seq<string>, x: seq<string>, tail: seq<string>)
    requires whole == (ka + kb) + x && tail == kb + x
    ensures whole == ka + tail
  {
  }

  /** The filter keeps the order of the matches: filtering a concatenation
      is concatenating the filtered parts. */
  lemma {:induction false} KeepTemplatesAppend(a: seq<string>, b: seq<string>)
    ensures KeepTemplates(a + b) == KeepTemplates(a) + KeepTemplates(b)
    decreases |b|
  {
    if |b| == 0 {
      assert a + b == a;
    } else {
      var binit := b[..|b| - 1];
      var last := b[|b| - 1];
      var x := if HasTemplateExtension(last) then [last] else [];
      assert b == binit + [last];
      assert a + b == (a + binit) + [last];
      KeepTemplatesSnoc(a + binit, last);
      KeepTemplatesSnoc(binit, last);
      KeepTemplatesAppend(a, binit);
      var ka, kb := KeepTemplates(a), KeepTemplates(binit);
      ReassociateLast(KeepTemplates(a + b), ka, kb, x, KeepTemplates(b));
    }
  }

  /** Every pattern's template matches, pattern after pattern, repeats kept. */
  function AllTemplateMatches(glob: Glob, patterns: seq<string>, options: GlobOptions): (r: seq<string>)
    ensures forall f :: f in r <==>
      exists p :: p in patterns && f in glob(p, options) && HasTemplateExtension(f)
    decreases |patterns|
  {
    if |patterns| == 0 then []
    else
      var init := patterns[..|patterns| - 1];
      var last := patterns[|patterns| - 1];
      assert patterns == init + [last];
      AllTemplateMatches(glob, init, options) + KeepTemplates(glob(last, options))
  }

  /** The set of template paths matched by any pattern: no path twice, a path
      exactly when some pattern matches it, in first-match order. */
  function ExpandFileGlobs(glob: Glob, patterns: seq<string>, ignorePattern: seq<IgnoreItem>): (r: seq<string>)
    ensures NoDup(r)
    ensures forall f :: f in r ==> HasTemplateExtension(f)
    ensures forall f :: f in r <==>
      exists p :: p in patterns && f in glob(p, GlobOptionsFor(ignorePattern)) && HasTemplateExtension(f)
    ensures InFirstSeenOrder(r, AllTemplateMatches(glob, patterns, GlobOptionsFor(ignorePattern)))
  {
    var all := AllTemplateMatches(glob, patterns, GlobOptionsFor(ignorePattern));
    DedupFirstSeen(all);
    Dedup(all)
  }

  /** One more pattern adds its template matches to the set in the order the
      globber lists them: the `forEach` over the patterns, one `add` at a time. */
  lemma ExpandFileGlobsSnoc(glob: Glob, patterns: seq<string>, pattern: string, ignorePattern: seq<IgnoreItem>)
    ensures var options := GlobOptionsFor(ignorePattern);
      ExpandFileGlobs(glob, patterns + [pattern], ignorePattern)
        == AddAll(ExpandFileGlobs(glob, patterns, ignorePattern), KeepTemplates(glob(pattern, options)))
  {
    var options := GlobOptionsFor(ignorePattern);
    var ps := patterns + [pattern];
    assert ps[..|ps| - 1] == patterns && ps[|ps| - 1] == pattern;
    DedupAppend(AllTemplateMatches(glob, patterns, options), KeepTemplates(glob(pattern, options)));
  }

  /** Standard input is read when no pattern is given, or when `-` or the
      stdin device path is among the patterns. */
  predicate IsStdinRequest(patterns: seq<string>) {
    |patterns| == 0 || "-" in patterns || STDIN in patterns
  }

  /** The sources of one run. A stdin marker anywhere discards every other
      pattern; otherwise the result is the glob expansion, which can never
      contain the stdin path. */
  function GetFilesToLint(glob: Glob, patterns: seq<string>, ignorePattern: seq<IgnoreItem>): (r: seq<string>)
    ensures IsStdinRequest(patterns) ==> r == [STDIN]
    ensures !IsStdinRequest(patterns) ==> r == ExpandFileGlobs(glob, patterns, ignorePattern)
    ensures !IsStdinRequest(patterns) ==> STDIN !in r && forall f :: f in r ==> HasTemplateExtension(f)
    ensures NoDup(r)
  {
    assert Last4(STDIN) == "tdin";
    if IsStdinRequest(patterns) then [STDIN]
    else ExpandFileGlobs(glob, patterns, ignorePattern)
  }

  /** A stdin marker placed anywhere among other patterns still yields
      exactly standard input. */
  lemma StdinMarkerAnywhere(glob: Glob, before: seq<string>, marker: string, after: seq<string>,
                            ignorePattern: seq<IgnoreItem>)
    requires marker == "-" || marker == STDIN
    ensures GetFilesToLint(glob, before + [marker] + after, ignorePattern) == [STDIN]
  {
    assert (before + [marker] + after)[|before|] == marker;
  }

  /** No patterns, `-` and the stdin path all resolve to the same source. */
  lemma StdinSpellingsAgree(glob: Glob)
    ensures GetFilesToLint(glob, [], []) == GetFilesToLint(glob, ["-"], [])
    ensures GetFilesToLint(glob, ["-"], []) == GetFilesToLint(glob, [STDIN], [])
    ensures GetFilesToLint(glob, [STDIN], []) == [STDIN]
  {
  }
}
